=== FILE: README.md ===
# Hotel booking front desk — a Dafny model

This project models the booking core of `Assignmen2.py`, a console hotel
front desk. It covers three classes:

- `Room`: a number, a type, amenities, a nightly price and an availability flag.
- `Guest`: a profile plus an append-only list of reservations.
- `Booking`: a guest, a room, two dates and a status that starts `"Confirmed"`
  and may become `"Cancelled"`.

It also covers the decisions `main` takes around those classes:

- the case-insensitive room search over the fixed three-room catalogue;
- the selection of a room by number;
- the strict check-in-before-check-out rule;
- the three-step booking protocol: build the booking, mark the room taken,
  file the booking with the guest;
- the invoice;
- the payment-method whitelist (`strip().lower()` against "credit card" and
  "mobile wallet");
- the final cancellation prompt.

The model is purely functional. All objects live in one `Store` (rooms, guests,
bookings). A reference from a booking to its room or guest, and from a guest to
its bookings, is an index into the matching sequence. Because two bookings that
name the same index share the room, `cancel_booking` changes two objects at once
(the booking and, through it, the room), just as the shared `Room` object does in
`Assignmen2.py`. Each operation returns the whole new store, and its contract says
what changed and that nothing else did.

Modules:

- `Results`: `Option` and `Result`.
- `Text`:
  - `Lower`: `str.lower`, restricted to ASCII letters.
  - `Strip`: `str.strip`, using every character Python's `str.isspace` accepts.
  - Their algebra: what strip removes, uniqueness, idempotence, and the fact
    that lower-casing commutes with stripping.
- `Dates`: dates as proleptic Gregorian day ordinals (Python's
  `date.toordinal`). It proves that ordinal order is calendar order and that
  the day after any date, across month and year ends, has the next ordinal.
  So the integer comparison stands for comparing the two parsed midnights,
  and the integer difference counts the nights.
- `Indices`: the positions of a sequence that pass a test, in order. Both the
  room search and a guest's reservation list are such a list.
- `Hotel`: the three classes and their methods.
- `Lifecycle`:
  - the booking protocol;
  - the store invariant `Consistent`, which the protocol and a first
    cancellation keep;
  - the facts that survive any sequence of the classes' operations.
- `FrontDesk`: the decisions of `main` and one whole session, `RunSession`,
  from the guest's creation to the cancellation prompt.

## Model

| member | source | states |
|---|---|---|
| Hotel.NewRoom | Assignmen2.py:7-12 | A new room is available and holds exactly the number, type, amenities and price it was given |
| Hotel.NewGuest | Assignmen2.py:36-41 | A new guest holds exactly the given profile and has no reservations |
| Hotel.AddGuest | Assignmen2.py:104-108 | Creating the guest appends exactly that guest after the existing ones; rooms and bookings are untouched; a guest whose list names only existing bookings keeps references valid |
| Hotel.SetAvailable | Assignmen2.py:17-21 | Afterwards the room reports the given flag; its number, type, amenities and price, every other room, every guest and every booking are unchanged; valid references stay valid |
| Hotel.SetAvailableLastWins | Assignmen2.py:17-18 | Setting availability twice equals setting it once to the second value |
| Hotel.SetAvailableUnchanged | Assignmen2.py:17-18 | Setting a room to the availability it already has changes nothing |
| Hotel.AddReservation | Assignmen2.py:43-47 | The guest's list grows by exactly the new booking at the end, earlier entries kept in order; the profile, other guests, rooms and bookings are unchanged |
| Hotel.AddTwoReservations | Assignmen2.py:43-44 | Two appends in turn list both bookings in that order after the existing entries |
| Hotel.Construct | Assignmen2.py:65-70 | A new booking is appended with status Confirmed and the given guest, room and dates; earlier bookings, rooms and guests are untouched |
| Hotel.StatusName | Assignmen2.py:89-90 | `get_status` reads "Confirmed" exactly for a confirmed booking and "Cancelled" exactly for a cancelled one |
| Hotel.GenerateInvoice | Assignmen2.py:72-82 | Nights is the whole-day difference check-out minus check-in, Total is Nights times the room price, Guest and Room are the guest's name and the room's number, and no state changes |
| Hotel.InvoiceExample | Assignmen2.py:72-82 | A three-night stay at 100 a night bills 3 nights and 300 in total |
| Hotel.InvoiceSplitsAtAnyDay | Assignmen2.py:73-74 | Splitting a stay at any day splits both the nights and the total additively |
| Hotel.InvoiceOfValidStay | Assignmen2.py:73-74 | A stay whose check-in is before its check-out bills at least one night, and at least one night's price when the price is not negative |
| Hotel.InvoiceAfterCancel | Assignmen2.py:72-90 | Every invoice is the same after a cancellation as before: the invoice ignores the status |
| Hotel.Cancel | Assignmen2.py:84-87 | The booking becomes Cancelled and its room becomes available; no other field, booking, room or guest changes; the message names the booking's room number |
| Hotel.CancelIdempotent | Assignmen2.py:84-87 | Cancelling twice gives the same store and message as cancelling once |
| Hotel.CancelCommutes | Assignmen2.py:84-87 | Cancelling two bookings gives the same store in either order, even when they share a room |
| Lifecycle.BookingsOf | Assignmen2.py:43-47 | The bookings made for a guest, ascending: every listed booking is the guest's, and every booking of the guest is listed |
| Lifecycle.BookingsOfAppend | Assignmen2.py:43-44 | A new booking appears after all earlier bookings of its guest and nowhere else |
| Lifecycle.Book | Assignmen2.py:138-140 | The protocol appends one Confirmed booking for the guest, room and dates, marks exactly that room unavailable, ends the guest's list with the new booking, and changes nothing else |
| Lifecycle.AddGuestPreservesConsistent | Assignmen2.py:104-108 | Creating a guest with no reservations keeps the store invariant |
| Lifecycle.CatalogueConsistent | Assignmen2.py:95-99 | A catalogue of available rooms with no bookings satisfies the store invariant |
| Lifecycle.BookPreservesConsistent | Assignmen2.py:135-140 | Booking an available room for at least one night keeps the invariant. The invariant covers four things: lists match bookings, a room is available iff no confirmed booking holds it, each room has at most one confirmed booking, and every stay is at least one night |
| Lifecycle.CancelPreservesConsistent | Assignmen2.py:84-87 | Cancelling a confirmed booking keeps the invariant |
| Lifecycle.RecancelBreaksConsistency | Assignmen2.py:84-86 | Cancellation does not look at the status. Suppose the room of a cancelled booking is booked again; cancelling the old booking again then frees a room that a confirmed booking still holds |
| Lifecycle.ConsistentInvoiceHasNights | Assignmen2.py:72-74 | In a consistent store every invoice bills at least one night |
| Lifecycle.StepEvolves | Assignmen2.py:17-90 | Every single method call keeps bookings, never reconfirms a cancelled one, never changes a booking's guest, room or dates or a room's attributes, and only grows reservation lists |
| Lifecycle.Step | Assignmen2.py:17-90 | One call of a class method (`set_available`, `add_reservation`, the `Booking` constructor, `cancel_booking`) leaves every reference valid; `StepEvolves` states what it keeps |
| Lifecycle.Run | Assignmen2.py:17-90 | Any sequence of such calls leaves every reference valid; `RunEvolves` states what it keeps |
| Lifecycle.RunEvolves | Assignmen2.py:17-90 | The same holds after any sequence of method calls |
| FrontDesk.Catalogue | Assignmen2.py:95-99 | The starting catalogue has three rooms, all available |
| FrontDesk.SearchSpec | Assignmen2.py:114-115 | The search returns exactly the rooms whose type equals the request ignoring case and that are available, each once, in catalogue order |
| FrontDesk.SearchSplits | Assignmen2.py:114-115 | Searching a catalogue in two parts gives the first part's hits followed by the second part's: the search keeps catalogue order |
| FrontDesk.SomeOfferedInSearch | Assignmen2.py:114-118 | The search result is empty exactly when no room of the type is available |
| FrontDesk.SearchExample | Assignmen2.py:114-115 | A search for "single" finds the available "Single" room and skips the unavailable one and the "Double" |
| FrontDesk.CatalogueSingles | Assignmen2.py:95-99 | In the starting catalogue a search for "single" finds room 101 alone |
| FrontDesk.Search | Assignmen2.py:114-115 | The comprehension yields catalogue positions only, no more of them than there are rooms; `SearchSpec` says which |
| FrontDesk.FirstNumbered | Assignmen2.py:126 | Where `next` stops: no offered room before that position has the typed number, the room at it has, and it is the end of the list when none has |
| FrontDesk.Select | Assignmen2.py:126-128 | Nothing is selected exactly when no offered room has the typed number; otherwise the selection is an offered room with that number |
| FrontDesk.SelectFirst | Assignmen2.py:126 | The selection is the first offered room with the typed number: every room listed before it has another number |
| FrontDesk.NumberOfferedInSearch | Assignmen2.py:114-126 | A typed number names an available room of the type exactly when the search result holds a room with that number |
| FrontDesk.Reserve | Assignmen2.py:125-140 | Fails exactly when no offered room has the number (invalid selection) or the dates are not in order (invalid date range). On success: one new Confirmed booking for the guest and dates; its room is offered, has the number and is now taken; the guest's list ends with it; its invoice bills at least one night; `ReserveIsBook` adds that nothing else changes |
| FrontDesk.ReserveIsBook | Assignmen2.py:126-140 | A successful reservation is exactly the booking protocol run on the room `next` selects; every other room, every other guest and every earlier booking stay as they were |
| FrontDesk.AcceptsPayment | Assignmen2.py:155-158 | The verdict of `payment_method.strip().lower() in allowed_methods`; `PaymentAcceptsListed` and `AcceptedIsListed` characterise it in both directions |
| FrontDesk.WantsCancel | Assignmen2.py:171-172 | The answer is lower-cased but not stripped and compared with "yes"; `KeepsOnNo` is its example |
| FrontDesk.PaymentIgnoresPadding | Assignmen2.py:158 | Whitespace around the typed payment method never changes the verdict |
| FrontDesk.PaymentIgnoresCase | Assignmen2.py:158 | Two methods that lower-case alike get the same verdict |
| FrontDesk.PaymentAcceptsListed | Assignmen2.py:155-159 | Either listed method in any case, with any whitespace around it, is accepted |
| FrontDesk.AcceptedIsListed | Assignmen2.py:155-159 | Every accepted method is a listed method in some case with whitespace around it |
| FrontDesk.AcceptsCreditCard | Assignmen2.py:155-159 | "Credit Card" is accepted |
| FrontDesk.RefusesCash | Assignmen2.py:155-159 | "cash" is refused |
| FrontDesk.RefusesCreditcard | Assignmen2.py:155-159 | "creditcard" without the space is refused |
| FrontDesk.KeepsOnNo | Assignmen2.py:171-173 | Answering "no" to the cancellation prompt keeps the booking |
| FrontDesk.RunSession | Assignmen2.py:104-173 | A session creates exactly one guest with the typed profile, keeps references valid, and ends with "no rooms found" exactly when no room of the type is available |
| FrontDesk.Proceed | Assignmen2.py:124-173 | Once rooms are offered the session never ends with "no rooms found"; it keeps references valid, adds no guest and leaves the booker's profile as typed |
| FrontDesk.SessionFrame | Assignmen2.py:104-173 | A session leaves the earlier guests, every earlier booking and every room but the booked one unchanged, and adds at most one booking. The booked room keeps its number, type, amenities and price, since only `set_available` touches it. The new guest's list is that booking, or empty when none was made |
| FrontDesk.ProceedFrame | Assignmen2.py:124-173 | The steps after the search touch no guest but the booker and no earlier booking. Of the rooms, they change only the booked room's availability |
| FrontDesk.SettleFrame | Assignmen2.py:155-173 | Payment and the cancellation prompt touch no guest and no other booking. Of the rooms, they change only the availability of the booking's room |
| FrontDesk.Settle | Assignmen2.py:148-173 | After booking: a refused method ends the session with the booking kept; an accepted one yields the booking's invoice and cancels exactly when the answer lower-cases to "yes" |
| FrontDesk.SessionOutcomeBySearch | Assignmen2.py:114-159 | How a session ends is determined by the search result, the selection and the dates: no rooms, invalid selection, invalid dates, or a booking |
| FrontDesk.SessionBooksOnlyValidRequests | Assignmen2.py:125-140 | A booking is made exactly when the typed number names an available room of the type and check-in is before check-out; otherwise rooms and bookings are untouched |
| FrontDesk.SessionInputErrors | Assignmen2.py:125-136 | An invalid selection is reported exactly when rooms are offered but none has the number; invalid dates exactly when the number is valid and check-out is not after check-in |
| FrontDesk.SessionBookingEffects | Assignmen2.py:138-173 | The effects of a session that booked. The one new booking is the guest's whole list and matches the request. The invoice bills check-out minus check-in nights (at least one) at the room's price. A refused method leaves the booking in place. The room is free again exactly when the guest cancelled |
| FrontDesk.SessionPreservesConsistent | Assignmen2.py:104-173 | A session keeps a consistent store consistent |
| FrontDesk.SettlePreservesConsistent | Assignmen2.py:155-173 | Paying and optionally cancelling a confirmed booking keeps the store consistent |
| FrontDesk.FrontDeskMain | Assignmen2.py:94-173 | `main` on the starting catalogue always leaves a consistent store |
| FrontDesk.SessionExample | Assignmen2.py:94-173 | Alice books room 101 for 2024-03-01 to 2024-03-03, pays by "Credit Card" and answers "no": invoice 2 nights at 100, total 200, room taken, her list holds the booking |
| Text.Lower | Assignmen2.py:115 | `lower()` keeps the length; `LowerIdempotent` and `LowerStripCommute` state its properties |
| Text.Strip | Assignmen2.py:158 | `strip()` returns a result that neither begins nor ends with whitespace and is no longer than its input |
| Text.StripParts | Assignmen2.py:158 | The input is the stripped text with nothing but whitespace on either side |
| Text.StripUnique | Assignmen2.py:158 | Any stripped core wrapped in whitespace strips back to that core |
| Text.StripIdempotent | Assignmen2.py:158 | Stripping twice is stripping once |
| Text.LowerStripCommute | Assignmen2.py:158 | Lower-casing and stripping commute |
| Text.LowerIdempotent | Assignmen2.py:115 | Lower-casing twice is lower-casing once |
| Dates.OrdinalOrder | Assignmen2.py:132-135 | For calendar days, calendar order is ordinal order and equal dates are equal ordinals, so the `>=` test on the parsed dates is the integer test |
| Dates.Ordinal | Assignmen2.py:132-133 | `date.toordinal` of a calendar day is at least 1; `OrdinalOrder`, `NextDateOrdinal` and `KnownOrdinal` pin it down |
| Dates.DaysBeforeMonth | Assignmen2.py:132-133 | The months before month `m` hold in total between 28 and 31 days per month |
| Dates.SameOrdinalSameDate | Assignmen2.py:132-135 | Two calendar days with the same ordinal are the same day |
| Dates.NextDate | Assignmen2.py:73 | The day after a calendar day is a calendar day and comes after it |
| Dates.NextDateOrdinal | Assignmen2.py:73 | The day after has the next ordinal: within a month, across a month's end and across a year's end, leap years included |
| Dates.AddDaysOrdinal | Assignmen2.py:73 | Stepping forward `n` days one at a time raises the ordinal by exactly `n` |
| Dates.DaysBetween | Assignmen2.py:73 | `(check_out - check_in).days` is at least one exactly when check-in is before check-out; `StayNights` and `DaysBetweenReaches` show it counts calendar days |
| Dates.StayNights | Assignmen2.py:73 | A stay that ends `n` calendar days after it starts is `n` nights, whatever months and years it crosses |
| Dates.DaysBetweenReaches | Assignmen2.py:73 | Conversely, stepping forward from check-in by the number of nights, one day at a time, lands on check-out |
| Dates.LeapDayStay | Assignmen2.py:73 | A stay from 2024-02-28 to 2024-03-01 counts the leap day: two nights |
| Dates.KnownOrdinal | Assignmen2.py:132-133 | 2024-01-01 is day 738886, as Python's `date.toordinal` gives |
| Indices.WhereSpec | Assignmen2.py:114-115 | The filter behind the search and the reservation lists returns exactly the marked positions, ascending |
| Indices.WhereSplits | Assignmen2.py:114-115 | Filtering two parts one after the other keeps the order of both |

## Left out

- Console I/O: every `input` and `print`, the confirmation and notification
  lines, and the reservation-history printout. What the user types arrives as a
  `Request`; what would be printed is the `Outcome`.
- Parsing: `int(...)` of the room number and `datetime.strptime` of the two
  dates. Both raise `ValueError` on malformed text, and that path is not
  modelled. The request carries an integer and two day ordinals. `InCalendar`
  and `Ordinal` define what a date denotes; the upper bound of year 9999 that
  `strptime` enforces is not modelled, and no lemma needs it.
- Exception scaffolding: the nested `try`/`except`, `StopIteration` (which `next`
  with a default never raises) and the catch-all handlers. The error paths become
  the `InputError` values of `Reserve` and `Settle`.
- Message wording: `cancel_booking`'s returned sentence is reduced to the room
  number it names. The invoice dictionary is a datatype with the same five
  fields.
- Text.Lower: lower-cases ASCII letters only. Python's `str.lower` also maps
  non-ASCII characters, and a few of them to ASCII letters: U+212A, the Kelvin
  sign, becomes `k`. None of the texts that typed input is compared with
  ("single", "double", "suite", "credit card", "mobile wallet", "yes")
  contains a `k`. The only other non-ASCII character whose lowering holds an
  ASCII letter, U+0130, lowers to two characters (`i` and a combining dot),
  so it cannot complete a match either. Every verdict of `main` is therefore
  the same under both rules.
- FrontDesk.Select: its own contract does not say the match is the first one;
  `SelectFirst` states that, so that the session proofs, which only need some
  match, do not carry the extra quantifier.
- FrontDesk.Reserve: its own contract describes the new booking and the room
  taken but not the rest of the store; `ReserveIsBook` states that the result
  is exactly `Book` on the selected room, with `Book`'s frame.
- Getters (`get_number`, `is_available`, `get_name`, `get_email`, ...): these are
  the datatype's fields.
- Object identity: rooms, guests and bookings are indices into one store, not
  heap objects. The shared-room side effect of cancellation is exact that way.
- Lifecycle.Step: a call that names an object not in the store leaves the
  store unchanged. `Assignmen2.py` cannot form such a call.
- Two observations that are not defects of `Assignmen2.py`. First, a refused
  payment method leaves the booking confirmed and the room taken, because
  nothing rolls it back (`SessionBookingEffects` states this). Second,
  `cancel_booking` does not check the status: `RecancelBreaksConsistency`
  shows what a second cancellation after a re-booking would do. `main` never
  reaches that state, since it makes one booking per run.

=== FILE: dates.dfy ===
/** Calendar dates as day ordinals. The front desk reads dates as `YYYY-MM-DD`
    and works with the midnight `datetime` of each; comparing two such values
    and taking `(later - earlier).days` is comparing and subtracting their
    proleptic Gregorian day ordinals (Python's `date.toordinal`), which is
    what this module defines. */
module Dates {

  /** A day ordinal: day 1 is 0001-01-01. */
  type Day = int

  predicate IsLeap(y: int) {
    y % 4 == 0 && (y % 100 != 0 || y % 400 == 0)
  }

  function DaysInYear(y: int): int {
    if IsLeap(y) then 366 else 365
  }

  function DaysInMonth(y: int, m: int): int
    requires 1 <= m <= 12
  {
    if m == 2 then (if IsLeap(y) then 29 else 28)
    else if m == 4 || m == 6 || m == 9 || m == 11 then 30
    else 31
  }

  /** A day of the proleptic Gregorian calendar, from year 1 on. */
  predicate InCalendar(y: int, m: int, d: int) {
    1 <= y && 1 <= m <= 12 && 1 <= d <= DaysInMonth(y, m)
  }

  /** Days in the months of year `y` before month `m`: between 28 and 31
      for each of them. */
  function DaysBeforeMonth(y: int, m: int): (n: int)
    requires 1 <= m <= 13
    ensures 28 * (m - 1) <= n <= 31 * (m - 1)
  {
    if m == 1 then 0 else DaysBeforeMonth(y, m - 1) + DaysInMonth(y, m - 1)
  }

  /** Days in the years before year `y`. */
  function DaysBeforeYear(y: int): (n: int)
    requires y >= 1
    ensures n >= 0
  {
    var z := y - 1;
    z * 365 + z / 4 - z / 100 + z / 400
  }

  /** The ordinal of a date, as `date.toordinal` computes it. */
  function Ordinal(y: int, m: int, d: int): (n: Day)
    requires InCalendar(y, m, d)
    ensures n >= 1
  {
    DaysBeforeMonth(y, m) + DaysBeforeYear(y) + d
  }

  /** Calendar order: earlier year, then earlier month, then earlier day. */
  predicate Before(y: int, m: int, d: int, y': int, m': int, d': int) {
    y < y' || (y == y' && (m < m' || (m == m' && d < d')))
  }

  /** Stepping `y - 1` to `y` raises `y / k` by one exactly when `k`
      divides `y`. */
  lemma DivStep(y: int, k: int)
    requires y >= 1 && (k == 4 || k == 100 || k == 400)
    ensures y / k - (y - 1) / k == (if y % k == 0 then 1 else 0)
  {
  }

  /** Consecutive years are a year's length apart. */
  lemma YearStep(y: int)
    requires y >= 1
    ensures DaysBeforeYear(y + 1) == DaysBeforeYear(y) + DaysInYear(y)
  {
    var z := y - 1;
    var a, b, c := y / 4 - z / 4, y / 100 - z / 100, y / 400 - z / 400;
    assert DaysBeforeYear(y + 1) == DaysBeforeYear(y) + 365 + a - b + c;
    DivStep(y, 4);
    DivStep(y, 100);
    DivStep(y, 400);
    if y % 100 == 0 {
      CenturyLeapDivisible(y);
    }
    if y % 400 == 0 {
      QuadCenturyDivisible(y);
    }
  }

  lemma CenturyLeapDivisible(y: int)
    requires y % 100 == 0
    ensures y % 4 == 0
  {
    var q := y / 100;
    assert y == 4 * (25 * q);
  }

  lemma QuadCenturyDivisible(y: int)
    requires y % 400 == 0
    ensures y % 100 == 0
  {
    var q := y / 400;
    assert y == 100 * (4 * q);
  }

  lemma {:induction false} YearsIncrease(y: int, y': int)
    requires 1 <= y <= y'
    ensures DaysBeforeYear(y) + DaysInYear(y) <= DaysBeforeYear(y') + DaysInYear(y')
    ensures y < y' ==> DaysBeforeYear(y) + DaysInYear(y) <= DaysBeforeYear(y')
    decreases y' - y
  {
    if y < y' {
      YearStep(y);
      YearsIncrease(y + 1, y');
    }
  }

  lemma {:induction false} MonthsIncrease(y: int, m: int, m': int)
    requires 1 <= m <= m' <= 13
    ensures DaysBeforeMonth(y, m) <= DaysBeforeMonth(y, m')
    ensures m < m' ==> DaysBeforeMonth(y, m) + DaysInMonth(y, m) <= DaysBeforeMonth(y, m')
    decreases m' - m
  {
    if m < m' {
      MonthsIncrease(y, m + 1, m');
    }
  }

  lemma YearLength(y: int)
    ensures DaysBeforeMonth(y, 13) == DaysInYear(y)
  {
    assert DaysBeforeMonth(y, 2) == 31;
    assert DaysBeforeMonth(y, 3) == 31 + DaysInMonth(y, 2);
    assert DaysBeforeMonth(y, 4) == DaysBeforeMonth(y, 3) + 31;
    assert DaysBeforeMonth(y, 5) == DaysBeforeMonth(y, 4) + 30;
    assert DaysBeforeMonth(y, 6) == DaysBeforeMonth(y, 5) + 31;
    assert DaysBeforeMonth(y, 7) == DaysBeforeMonth(y, 6) + 30;
    assert DaysBeforeMonth(y, 8) == DaysBeforeMonth(y, 7) + 31;
    assert DaysBeforeMonth(y, 9) == DaysBeforeMonth(y, 8) + 31;
    assert DaysBeforeMonth(y, 10) == DaysBeforeMonth(y, 9) + 30;
    assert DaysBeforeMonth(y, 11) == DaysBeforeMonth(y, 10) + 31;
    assert DaysBeforeMonth(y, 12) == DaysBeforeMonth(y, 11) + 30;
    assert DaysBeforeMonth(y, 13) == DaysBeforeMonth(y, 12) + 31;
  }

  /** Calendar order and ordinal order agree on valid dates: the model's
      integer comparison of check-in and check-out is the comparison of the
      two dates. */
  lemma OrdinalOrder(y: int, m: int, d: int, y': int, m': int, d': int)
    requires InCalendar(y, m, d) && InCalendar(y', m', d')
    ensures Before(y, m, d, y', m', d') <==> Ordinal(y, m, d) < Ordinal(y', m', d')
    ensures (y, m, d) == (y', m', d') <==> Ordinal(y, m, d) == Ordinal(y', m', d')
  {
    if Before(y, m, d, y', m', d') {
      OrdinalFollowsCalendar(y, m, d, y', m', d');
    } else if Before(y', m', d', y, m, d) {
      OrdinalFollowsCalendar(y', m', d', y, m, d);
    }
  }

  lemma OrdinalFollowsCalendar(y: int, m: int, d: int, y': int, m': int, d': int)
    requires InCalendar(y, m, d) && InCalendar(y', m', d')
    requires Before(y, m, d, y', m', d')
    ensures Ordinal(y, m, d) < Ordinal(y', m', d')
  {
    MonthsIncrease(y, m, 13);
    YearLength(y);
    if y < y' {
      YearsIncrease(y, y');
    } else if m < m' {
      MonthsIncrease(y, m, m');
    }
  }

  /** The whole days from check-in to check-out, as `(out - in).days`. */
  function DaysBetween(checkIn: Day, checkOut: Day): (n: int)
    ensures checkIn < checkOut <==> n >= 1
    ensures checkIn + n == checkOut
  {
    checkOut - checkIn
  }

  /** The calendar day after a date: the next day of the month, else the
      first of the next month, else New Year's Day. */
  function NextDate(y: int, m: int, d: int): (next: (int, int, int))
    requires InCalendar(y, m, d)
    ensures InCalendar(next.0, next.1, next.2)
    ensures Before(y, m, d, next.0, next.1, next.2)
  {
    if d < DaysInMonth(y, m) then (y, m, d + 1)
    else if m < 12 then (y, m + 1, 1)
    else (y + 1, 1, 1)
  }

  /** The ordinal counts days: the day after a date is the next ordinal,
      within a month, across a month's end and across a year's end. */
  lemma NextDateOrdinal(y: int, m: int, d: int)
    requires InCalendar(y, m, d)
    ensures var next := NextDate(y, m, d);
            Ordinal(next.0, next.1, next.2) == Ordinal(y, m, d) + 1
  {
    if d == DaysInMonth(y, m) && m == 12 {
      YearStep(y);
      YearLength(y);
    }
  }

  /** The date `n` days after a date, one day at a time. */
  function AddDays(y: int, m: int, d: int, n: nat): (later: (int, int, int))
    requires InCalendar(y, m, d)
    ensures InCalendar(later.0, later.1, later.2)
    decreases n
  {
    if n == 0 then (y, m, d)
    else
      var before := AddDays(y, m, d, n - 1);
      NextDate(before.0, before.1, before.2)
  }

  lemma {:induction false} AddDaysOrdinal(y: int, m: int, d: int, n: nat)
    requires InCalendar(y, m, d)
    ensures var later := AddDays(y, m, d, n);
            Ordinal(later.0, later.1, later.2) == Ordinal(y, m, d) + n
    decreases n
  {
    if n > 0 {
      var before := AddDays(y, m, d, n - 1);
      AddDaysOrdinal(y, m, d, n - 1);
      NextDateOrdinal(before.0, before.1, before.2);
    }
  }

  /** `DaysBetween` counts calendar days: a stay of `n` days from a date is
      `n` nights. */
  lemma StayNights(y: int, m: int, d: int, n: nat)
    requires InCalendar(y, m, d)
    ensures var later := AddDays(y, m, d, n);
            DaysBetween(Ordinal(y, m, d), Ordinal(later.0, later.1, later.2)) == n
  {
    AddDaysOrdinal(y, m, d, n);
  }

  /** Conversely, from any date, stepping forward `DaysBetween` days one at a
      time lands on the later date. */
  lemma DaysBetweenReaches(y: int, m: int, d: int, y': int, m': int, d': int)
    requires InCalendar(y, m, d) && InCalendar(y', m', d')
    requires Ordinal(y, m, d) <= Ordinal(y', m', d')
    ensures AddDays(y, m, d, DaysBetween(Ordinal(y, m, d), Ordinal(y', m', d'))) == (y', m', d')
  {
    var n := Ordinal(y', m', d') - Ordinal(y, m, d);
    var later := AddDays(y, m, d, n);
    AddDaysOrdinal(y, m, d, n);
    assert Ordinal(later.0, later.1, later.2) == Ordinal(y', m', d');
    SameOrdinalSameDate(later.0, later.1, later.2, y', m', d');
    assert later == (y', m', d');
    assert DaysBetween(Ordinal(y, m, d), Ordinal(y', m', d')) == n;
  }

  /** Different dates have different ordinals. */
  lemma SameOrdinalSameDate(y: int, m: int, d: int, y': int, m': int, d': int)
    requires InCalendar(y, m, d) && InCalendar(y', m', d')
    ensures Ordinal(y, m, d) == Ordinal(y', m', d') ==> (y, m, d) == (y', m', d')
  {
    if Before(y, m, d, y', m', d') {
      OrdinalFollowsCalendar(y, m, d, y', m', d');
    } else if Before(y', m', d', y, m, d) {
      OrdinalFollowsCalendar(y', m', d', y, m, d);
    }
  }

  /** A stay over the leap day of 2024 counts it. */
  lemma LeapDayStay()
    ensures DaysBetween(Ordinal(2024, 2, 28), Ordinal(2024, 3, 1)) == 2
  {
  }

  /** The ordinal agrees with Python's `date.toordinal` at a known point:
      2024-01-01 is day 738886. */
  lemma KnownOrdinal()
    ensures Ordinal(2024, 1, 1) == 738886
  {
  }
}

=== FILE: front_desk.dfy ===
/** The decisions `main` takes around the three classes: the room search, the
    choice of a room by number, the date check, the booking protocol, the
    payment-method whitelist and the cancellation prompt, and one whole
    session built from them. Prompts and printing are not modelled; what the
    user types arrives as a `Request`. */
module FrontDesk {
  import opened Results
  import opened Text
  import opened Dates
  import opened Indices
  import opened Hotel
  import opened Lifecycle

  /** The rooms `main` starts with. */
  function Catalogue(): (rooms: seq<Room>)
    ensures |rooms| == 3
    ensures forall r :: 0 <= r < |rooms| ==> rooms[r].available
  {
    [ NewRoom(101, "Single", ["WiFi", "TV"], 100),
      NewRoom(102, "Double", ["WiFi", "TV", "Mini-bar"], 150),
      NewRoom(201, "Suite", ["WiFi", "TV", "Mini-bar", "Jacuzzi"], 250) ]
  }

  /** The search's filter: the type matches ignoring case, and the room is
      available. The typed type is not stripped. */
  predicate Offered(room: Room, requested: string) {
    EqualsIgnoreCase(room.roomType, requested) && room.available
  }

  /** Marks the rooms on offer for the requested type. */
  function OfferedMarks(rooms: seq<Room>, requested: string): (m: seq<bool>)
    ensures |m| == |rooms| && forall i :: 0 <= i < |rooms| ==> m[i] == Offered(rooms[i], requested)
  {
    seq(|rooms|, i requires 0 <= i < |rooms| => Offered(rooms[i], requested))
  }

  /** The room search: the catalogue ids of the offered rooms, in order;
      `SearchSpec` states what it returns. */
  function Search(rooms: seq<Room>, requested: string): (ids: seq<RoomId>)
    ensures |ids| <= |rooms| && RefsBelow(ids, |rooms|)
  {
    Where(OfferedMarks(rooms, requested))
  }

  /** The search returns exactly the offered rooms, each once, in catalogue
      order. */
  lemma SearchSpec(rooms: seq<Room>, requested: string)
    ensures var ids := Search(rooms, requested);
            && Increasing(ids)
            && (forall k :: 0 <= k < |ids| ==> ids[k] < |rooms| && Offered(rooms[ids[k]], requested))
            && (forall j :: 0 <= j < |rooms| && Offered(rooms[j], requested) ==> j in ids)
  {
    WhereSpec(OfferedMarks(rooms, requested));
  }

  /** Searching a catalogue in two parts gives the first part's hits followed
      by the second part's, moved up: the search keeps catalogue order. */
  lemma SearchSplits(a: seq<Room>, b: seq<Room>, requested: string)
    ensures Search(a + b, requested) == Search(a, requested) + Shift(Search(b, requested), |a|)
  {
    assert OfferedMarks(a + b, requested) == OfferedMarks(a, requested) + OfferedMarks(b, requested);
    WhereSplits(OfferedMarks(a, requested), OfferedMarks(b, requested));
  }

  /** Position in `offered` of the first room numbered `number`, or
      `|offered|` when there is none. */
  function FirstNumbered(rooms: seq<Room>, offered: seq<RoomId>, number: int): (k: nat)
    requires RefsBelow(offered, |rooms|)
    ensures k <= |offered|
    ensures forall i :: 0 <= i < k ==> rooms[offered[i]].number != number
    ensures k < |offered| ==> rooms[offered[k]].number == number
    decreases |offered|
  {
    if |offered| == 0 || rooms[offered[0]].number == number then 0
    else 1 + FirstNumbered(rooms, offered[1..], number)
  }

  /** `next((room for room in available_rooms if …), None)`: the first offered
      room with the typed number, or nothing. */
  function Select(rooms: seq<Room>, offered: seq<RoomId>, number: int): (sel: Option<RoomId>)
    requires RefsBelow(offered, |rooms|)
    ensures sel.None? <==> forall k :: 0 <= k < |offered| ==> rooms[offered[k]].number != number
    ensures sel.Some? ==> sel.value in offered && sel.value < |rooms| && rooms[sel.value].number == number
  {
    var k := FirstNumbered(rooms, offered, number);
    if k < |offered| then Some(offered[k]) else None
  }

  /** `next` stops at the first match: the selected room is listed in
      `offered` before any other room with the typed number, so a later
      match is never chosen over an earlier one. */
  lemma SelectFirst(rooms: seq<Room>, offered: seq<RoomId>, number: int)
    requires RefsBelow(offered, |rooms|)
    ensures var sel := Select(rooms, offered, number);
            sel.Some? ==>
              exists k :: 0 <= k < |offered| && sel.value == offered[k]
                          && forall i :: 0 <= i < k ==> rooms[offered[i]].number != number
  {
    var k := FirstNumbered(rooms, offered, number);
    if k < |offered| {
      assert Select(rooms, offered, number).value == offered[k];
    }
  }

  /** The typed number names an offered room. */
  predicate NumberOffered(rooms: seq<Room>, requested: string, number: int) {
    exists j :: 0 <= j < |rooms| && Offered(rooms[j], requested) && rooms[j].number == number
  }

  /** The input errors of the reservation and payment steps. */
  datatype InputError = InvalidRoomSelection | InvalidDateRange | InvalidPaymentMethod

  datatype Reservation = Reservation(store: Store, booking: BookingId)

  /** The reservation step: select the room, insist that check-in comes
      strictly before check-out, then run the booking protocol. On an error
      nothing has been built. On success the booking protocol ran, for the
      first offered room with the typed number, and changed nothing else:
      that room is now taken; the guest's list ends with the new booking;
      the stay is at least one night. */
  function Reserve(s: Store, g: GuestId, offered: seq<RoomId>, number: int, checkIn: Day, checkOut: Day)
    : (res: Result<Reservation, InputError>)
    requires Valid(s) && g < |s.guests| && RefsBelow(offered, |s.rooms|)
    ensures res.Err? <==>
              (forall k :: 0 <= k < |offered| ==> s.rooms[offered[k]].number != number) || checkOut <= checkIn
    ensures res.Err? ==>
              (res.error == InvalidRoomSelection <==>
                 forall k :: 0 <= k < |offered| ==> s.rooms[offered[k]].number != number)
    ensures res.Err? ==> res.error != InvalidPaymentMethod
    ensures res.Ok? ==>
              var t, b := res.value.store, res.value.booking;
              && Valid(t)
              && b == |s.bookings| && |t.bookings| == b + 1 && t.bookings[..b] == s.bookings
              && var bk := t.bookings[b];
                 && bk.guest == g && bk.checkIn == checkIn && bk.checkOut == checkOut
                 && bk.status == Confirmed
                 && bk.room in offered && s.rooms[bk.room].number == number
                 && !t.rooms[bk.room].available
                 && t.guests[g].reservations == s.guests[g].reservations + [b]
                 && GenerateInvoice(t, b).nights >= 1
  {
    match Select(s.rooms, offered, number)
    case None => Err(InvalidRoomSelection)
    case Some(r) =>
      if checkIn >= checkOut then Err(InvalidDateRange)
      else Ok(Reservation(Book(s, g, r, checkIn, checkOut), |s.bookings|))
  }

  /** A successful reservation is the booking protocol of `Book` run on the
      room `Select` picks (the first offered one with the typed number) and
      nothing more: every other room, the guests other
      than the booker and every earlier booking are left as they were. */
  lemma ReserveIsBook(s: Store, g: GuestId, offered: seq<RoomId>, number: int, checkIn: Day, checkOut: Day)
    requires Valid(s) && g < |s.guests| && RefsBelow(offered, |s.rooms|)
    ensures var res := Reserve(s, g, offered, number, checkIn, checkOut);
            res.Ok? ==>
              var t := res.value.store;
              var r := t.bookings[res.value.booking].room;
              && r < |s.rooms|
              && Select(s.rooms, offered, number) == Some(r)
              && t == Book(s, g, r, checkIn, checkOut)
              && (forall j :: 0 <= j < |s.rooms| && j != r ==> t.rooms[j] == s.rooms[j])
              && (forall h :: 0 <= h < |s.guests| && h != g ==> t.guests[h] == s.guests[h])
  {
  }

  /** The accepted payment methods, already normalised. */
  const AllowedMethods: seq<string> := ["credit card", "mobile wallet"]

  /** `payment_method.strip().lower() in allowed_methods`. */
  predicate AcceptsPayment(choice: string) {
    Lower(Strip(choice)) in AllowedMethods
  }

  /** Whitespace around the typed method never changes the verdict. */
  lemma PaymentIgnoresPadding(p: string, choice: string, q: string)
    requires AllSpace(p) && AllSpace(q)
    ensures AcceptsPayment(p + choice + q) <==> AcceptsPayment(choice)
  {
    var c := Strip(choice);
    var p', q' := StripParts(choice);
    Regroup(p, choice, q, p', c, q');
    AllSpaceAppend(p, p');
    AllSpaceAppend(q', q);
    StripUnique(p + p', c, q' + q);
    assert Strip(p + choice + q) == Strip(choice);
  }

  /** Only the lower-cased text decides the verdict: the check ignores case. */
  lemma PaymentIgnoresCase(choice: string, other: string)
    requires Lower(choice) == Lower(other)
    ensures AcceptsPayment(choice) <==> AcceptsPayment(other)
  {
    LowerStripCommute(choice);
    LowerStripCommute(other);
  }

  /** A method typed exactly as listed, in any case and padded with any
      whitespace, is accepted. */
  lemma PaymentAcceptsListed(p: string, choice: string, q: string)
    requires AllSpace(p) && AllSpace(q)
    requires Lower(choice) == "credit card" || Lower(choice) == "mobile wallet"
    ensures AcceptsPayment(p + choice + q)
  {
    var l := Lower(choice);
    assert l[0] == LowerChar(choice[0]) && l[|l| - 1] == LowerChar(choice[|choice| - 1]);
    SpaceLower(choice[0]);
    SpaceLower(choice[|choice| - 1]);
    StripStripped(choice);
    PaymentIgnoresPadding(p, choice, q);
  }

  /** The converse: an accepted method is one of the two names, in some mix
      of cases, with whitespace around it. */
  lemma AcceptedIsListed(choice: string) returns (p: string, c: string, q: string)
    requires AcceptsPayment(choice)
    ensures choice == p + c + q && AllSpace(p) && AllSpace(q)
    ensures Lower(c) == "credit card" || Lower(c) == "mobile wallet"
  {
    p, q := StripParts(choice);
    c := Strip(choice);
    ListedMethods(Lower(c));
  }

  /** Membership in the whitelist, spelled out. */
  lemma ListedMethods(m: string)
    requires m in AllowedMethods
    ensures m == "credit card" || m == "mobile wallet"
  {
  }

  /** "Credit Card" is accepted. */
  lemma AcceptsCreditCard()
    ensures AcceptsPayment("Credit Card")
  {
    assert Lower("Credit Card") == "credit card";
    assert [] + "Credit Card" + [] == "Credit Card";
    PaymentAcceptsListed([], "Credit Card", []);
  }

  /** "cash" is refused. */
  lemma RefusesCash()
    ensures !AcceptsPayment("cash")
  {
    StripStripped("cash");
    var t := Strip("cash");
    assert |Lower(t)| == 4;
  }

  /** "creditcard" without its space is refused. */
  lemma RefusesCreditcard()
    ensures !AcceptsPayment("creditcard")
  {
    StripStripped("creditcard");
    var t := Strip("creditcard");
    assert |Lower(t)| == 10;
  }

  /** `cancel.lower() == "yes"`: lower-cased, not stripped. */
  predicate WantsCancel(answer: string) {
    Lower(answer) == "yes"
  }

  /** What the user types during one session. */
  datatype Request = Request(
    name: string, email: string, contact: string, loyaltyStatus: string,
    roomType: string, roomNumber: int, checkIn: Day, checkOut: Day,
    payment: string, cancelAnswer: string)

  /** How a session ends. `Rejected` is an input error of the booking steps;
      `Paid` carries the invoice shown and whether the booking was then
      cancelled. */
  datatype Outcome =
    | NoRoomsFound
    | Rejected(reason: InputError)
    | Paid(invoice: Invoice, cancelled: bool)

  datatype Session = Session(store: Store, guest: GuestId, outcome: Outcome)

  /** One run of `main` from the guest's creation on. */
  function RunSession(s: Store, req: Request): (out: Session)
    requires Valid(s)
    ensures Valid(out.store)
    ensures out.guest == |s.guests| && |out.store.guests| == |s.guests| + 1
    ensures SameProfile(out.store.guests[out.guest],
                        NewGuest(req.name, req.email, req.contact, req.loyaltyStatus))
    ensures out.outcome == NoRoomsFound <==>
              forall j :: 0 <= j < |s.rooms| ==> !Offered(s.rooms[j], req.roomType)
  {
    var s1 := AddGuest(s, NewGuest(req.name, req.email, req.contact, req.loyaltyStatus));
    var g := |s.guests|;
    var offered := Search(s1.rooms, req.roomType);
    SomeOfferedInSearch(s1.rooms, req.roomType);
    if |offered| == 0 then
      Session(s1, g, NoRoomsFound)
    else
      Proceed(s1, g, offered, req)
  }

  /** Reserve and, if that succeeds, settle. */
  function Proceed(s: Store, g: GuestId, offered: seq<RoomId>, req: Request): (out: Session)
    requires Valid(s) && g < |s.guests| && RefsBelow(offered, |s.rooms|)
    ensures Valid(out.store) && out.guest == g && |out.store.guests| == |s.guests|
    ensures SameProfile(out.store.guests[g], s.guests[g])
    ensures out.outcome != NoRoomsFound
  {
    match Reserve(s, g, offered, req.roomNumber, req.checkIn, req.checkOut)
    case Err(e) => Session(s, g, Rejected(e))
    case Ok(Reservation(s2, b)) => Settle(s2, g, b, req)
  }

  /** After the booking: show the invoice, check the payment method, then
      ask whether to cancel. A refused method ends the session with the
      booking still in place; there is no rollback. */
  function Settle(s: Store, g: GuestId, b: BookingId, req: Request): (out: Session)
    requires Valid(s) && g < |s.guests| && b < |s.bookings|
    ensures Valid(out.store) && out.guest == g
    ensures out.store.guests == s.guests && |out.store.bookings| == |s.bookings|
    ensures out.outcome.Paid? || out.outcome == Rejected(InvalidPaymentMethod)
    ensures out.outcome == Rejected(InvalidPaymentMethod) <==> !AcceptsPayment(req.payment)
    ensures out.outcome.Paid? ==>
              out.outcome.invoice == GenerateInvoice(s, b)
              && (out.outcome.cancelled <==> WantsCancel(req.cancelAnswer))
    ensures out.store == (if out.outcome == Paid(GenerateInvoice(s, b), true) then Cancel(s, b).store else s)
  {
    var invoice := GenerateInvoice(s, b);
    if !AcceptsPayment(req.payment) then
      Session(s, g, Rejected(InvalidPaymentMethod))
    else if WantsCancel(req.cancelAnswer) then
      Session(Cancel(s, b).store, g, Paid(invoice, true))
    else
      Session(s, g, Paid(invoice, false))
  }

  /** The typed number names an offered room exactly when the search's
      result holds a room with that number. */
  lemma NumberOfferedInSearch(rooms: seq<Room>, requested: string, number: int)
    ensures var ids := Search(rooms, requested);
            RefsBelow(ids, |rooms|)
            && (NumberOffered(rooms, requested, number) <==>
                  exists k :: 0 <= k < |ids| && rooms[ids[k]].number == number)
  {
    var ids := Search(rooms, requested);
    SearchSpec(rooms, requested);
    if NumberOffered(rooms, requested, number) {
      var j :| 0 <= j < |rooms| && Offered(rooms[j], requested) && rooms[j].number == number;
      assert j in ids;
      var k :| 0 <= k < |ids| && ids[k] == j;
    }
  }

  /** Some room is offered exactly when the search's result is not empty. */
  lemma SomeOfferedInSearch(rooms: seq<Room>, requested: string)
    ensures |Search(rooms, requested)| > 0 <==>
              exists j :: 0 <= j < |rooms| && Offered(rooms[j], requested)
  {
    var ids := Search(rooms, requested);
    SearchSpec(rooms, requested);
    if |ids| > 0 {
      assert Offered(rooms[ids[0]], requested);
    }
    if exists j :: 0 <= j < |rooms| && Offered(rooms[j], requested) {
      var j :| 0 <= j < |rooms| && Offered(rooms[j], requested);
      assert j in ids;
    }
  }

  /** Whether a session made a booking, judged by how it ended. */
  predicate Booked(out: Session) {
    out.outcome.Paid? || out.outcome == Rejected(InvalidPaymentMethod)
  }

  /** A booking is made exactly when the typed number names an offered room
      and the dates are in order; otherwise rooms and bookings are
      untouched. */
  lemma SessionBooksOnlyValidRequests(s: Store, req: Request)
    requires Valid(s)
    ensures Booked(RunSession(s, req)) <==>
              NumberOffered(s.rooms, req.roomType, req.roomNumber) && req.checkIn < req.checkOut
    ensures !Booked(RunSession(s, req)) ==>
              RunSession(s, req).store.rooms == s.rooms && RunSession(s, req).store.bookings == s.bookings
  {
    NumberOfferedInSearch(s.rooms, req.roomType, req.roomNumber);
    SessionOutcomeBySearch(s, req);
    var g := |s.guests|;
    var s1 := AddGuest(s, NewGuest(req.name, req.email, req.contact, req.loyaltyStatus));
    var offered := Search(s.rooms, req.roomType);
    if |offered| > 0 {
      var res := Reserve(s1, g, offered, req.roomNumber, req.checkIn, req.checkOut);
    }
  }

  /** An invalid selection is reported exactly when rooms of the type are
      offered but none with the typed number; wrong dates only once the
      selection is valid. */
  lemma SessionInputErrors(s: Store, req: Request)
    requires Valid(s)
    ensures RunSession(s, req).outcome == Rejected(InvalidRoomSelection) <==>
              (exists j :: 0 <= j < |s.rooms| && Offered(s.rooms[j], req.roomType))
              && !NumberOffered(s.rooms, req.roomType, req.roomNumber)
    ensures RunSession(s, req).outcome == Rejected(InvalidDateRange) <==>
              NumberOffered(s.rooms, req.roomType, req.roomNumber) && req.checkOut <= req.checkIn
  {
    NumberOfferedInSearch(s.rooms, req.roomType, req.roomNumber);
    SomeOfferedInSearch(s.rooms, req.roomType);
    SessionOutcomeBySearch(s, req);
  }

  /** How the session ends, read off the search, the selection and the
      dates. */
  lemma SessionOutcomeBySearch(s: Store, req: Request)
    requires Valid(s)
    ensures var ids, out := Search(s.rooms, req.roomType), RunSession(s, req).outcome;
            var named := Select(s.rooms, ids, req.roomNumber).Some?;
            && (out == NoRoomsFound <==> |ids| == 0)
            && (out == Rejected(InvalidRoomSelection) <==> |ids| > 0 && !named)
            && (out == Rejected(InvalidDateRange) <==> named && req.checkOut <= req.checkIn)
            && (Booked(RunSession(s, req)) <==> named && req.checkIn < req.checkOut)
  {
    var g := |s.guests|;
    var s1 := AddGuest(s, NewGuest(req.name, req.email, req.contact, req.loyaltyStatus));
    var offered := Search(s.rooms, req.roomType);
    if |offered| > 0 {
      var res := Reserve(s1, g, offered, req.roomNumber, req.checkIn, req.checkOut);
      if res.Ok? {
        var out := Settle(res.value.store, g, res.value.booking, req);
      }
    }
  }

  /** When a booking is made, the guest's list is exactly that booking, the
      invoice bills the nights of the stay at the room's price, and the room
      is taken unless the session ended by cancelling it. A rejected payment
      rolls nothing back. */
  lemma SessionBookingEffects(s: Store, req: Request)
    requires Valid(s)
    requires Booked(RunSession(s, req))
    ensures var out := RunSession(s, req);
            var t, n := out.store, |s.bookings|;
            && |t.bookings| == n + 1 && t.bookings[..n] == s.bookings
            && var bk := t.bookings[n];
               && bk.guest == out.guest && bk.checkIn == req.checkIn && bk.checkOut == req.checkOut
               && Offered(s.rooms[bk.room], req.roomType) && s.rooms[bk.room].number == req.roomNumber
               && t.guests[out.guest].reservations == [n]
               && (out.outcome == Rejected(InvalidPaymentMethod) <==> !AcceptsPayment(req.payment))
               && (out.outcome.Paid? ==>
                     && out.outcome.invoice.nights == req.checkOut - req.checkIn >= 1
                     && out.outcome.invoice.pricePerNight == s.rooms[bk.room].price
                     && out.outcome.invoice.total == out.outcome.invoice.nights * s.rooms[bk.room].price
                     && (out.outcome.cancelled <==> WantsCancel(req.cancelAnswer)))
               && (bk.status == Cancelled <==> out.outcome.Paid? && out.outcome.cancelled)
               && (t.rooms[bk.room].available <==> bk.status == Cancelled)
  {
    var g := |s.guests|;
    var s1 := AddGuest(s, NewGuest(req.name, req.email, req.contact, req.loyaltyStatus));
    var offered := Search(s1.rooms, req.roomType);
    SearchSpec(s1.rooms, req.roomType);
    var res := Reserve(s1, g, offered, req.roomNumber, req.checkIn, req.checkOut);
    assert res.Ok?;
    var s2, n := res.value.store, res.value.booking;
    var r := s2.bookings[n].room;
    assert s1.rooms == s.rooms && s1.bookings == s.bookings && s1.guests[g].reservations == [];
    assert Offered(s.rooms[r], req.roomType);
    var invoice := GenerateInvoice(s2, n);
    if AcceptsPayment(req.payment) && WantsCancel(req.cancelAnswer) {
      var t := Cancel(s2, n).store;
      assert t.bookings[..n] == s2.bookings[..n];
    }
  }

  /** What a session leaves alone: the guests who were there before, every
      earlier booking, every room except the one it booked, and the number,
      type, amenities and price of that one too. The new guest's list holds
      the booking, if one was made, and nothing else. */
  lemma SessionFrame(s: Store, req: Request)
    requires Valid(s)
    ensures var t, n := RunSession(s, req).store, |s.bookings|;
            && |t.rooms| == |s.rooms| && |t.guests| == |s.guests| + 1
            && (forall h :: 0 <= h < |s.guests| ==> t.guests[h] == s.guests[h])
            && t.guests[|s.guests|].reservations == (if |t.bookings| == n then [] else [n])
            && n <= |t.bookings| <= n + 1 && t.bookings[..n] == s.bookings
            && (forall j :: 0 <= j < |s.rooms| ==> SameRoom(t.rooms[j], s.rooms[j]))
            && (forall j :: 0 <= j < |s.rooms| && (|t.bookings| == n || j != t.bookings[n].room) ==>
                  t.rooms[j] == s.rooms[j])
  {
    var g := |s.guests|;
    var s1 := AddGuest(s, NewGuest(req.name, req.email, req.contact, req.loyaltyStatus));
    var offered := Search(s1.rooms, req.roomType);
    if |offered| > 0 {
      ProceedFrame(s1, g, offered, req);
    }
  }

  /** The same for the steps after the search, which touch only the
      booker among the guests and only the availability of the booked
      room. */
  lemma ProceedFrame(s: Store, g: GuestId, offered: seq<RoomId>, req: Request)
    requires Valid(s) && g < |s.guests| && RefsBelow(offered, |s.rooms|)
    ensures var t, n := Proceed(s, g, offered, req).store, |s.bookings|;
            && |t.rooms| == |s.rooms| && |t.guests| == |s.guests|
            && (forall h :: 0 <= h < |s.guests| && h != g ==> t.guests[h] == s.guests[h])
            && n <= |t.bookings| <= n + 1 && t.bookings[..n] == s.bookings
            && (forall j :: 0 <= j < |s.rooms| ==> SameRoom(t.rooms[j], s.rooms[j]))
            && (forall j :: 0 <= j < |s.rooms| && (|t.bookings| == n || j != t.bookings[n].room) ==>
                  t.rooms[j] == s.rooms[j])
  {
    var res := Reserve(s, g, offered, req.roomNumber, req.checkIn, req.checkOut);
    if res.Ok? {
      ReserveIsBook(s, g, offered, req.roomNumber, req.checkIn, req.checkOut);
      var s2, n := res.value.store, res.value.booking;
      var r := s2.bookings[n].room;
      SettleFrame(s2, g, n, req);
      var t := Settle(s2, g, n, req).store;
      assert t == Proceed(s, g, offered, req).store;
      forall j | 0 <= j < |s.rooms|
        ensures SameRoom(t.rooms[j], s.rooms[j])
      {
        assert SameRoom(t.rooms[j], s2.rooms[j]);
        if j != r {
          assert s2.rooms[j] == s.rooms[j];
        }
      }
    }
  }

  /** Settling touches no guest, no other booking, and of the rooms only the
      availability of the booked one. */
  lemma SettleFrame(s: Store, g: GuestId, b: BookingId, req: Request)
    requires Valid(s) && g < |s.guests| && b < |s.bookings|
    ensures var t := Settle(s, g, b, req).store;
            && t.guests == s.guests && |t.rooms| == |s.rooms|
            && |t.bookings| == |s.bookings| && t.bookings[..b] == s.bookings[..b]
            && t.bookings[b].room == s.bookings[b].room
            && (forall j :: 0 <= j < |s.bookings| && j != b ==> t.bookings[j] == s.bookings[j])
            && (forall j :: 0 <= j < |s.rooms| ==> SameRoom(t.rooms[j], s.rooms[j]))
            && (forall j :: 0 <= j < |s.rooms| && j != s.bookings[b].room ==> t.rooms[j] == s.rooms[j])
  {
    var out := Settle(s, g, b, req);
    if out.outcome == Paid(GenerateInvoice(s, b), true) {
      var t := Cancel(s, b).store;
      assert out.store == t;
      assert t.bookings[..b] == s.bookings[..b];
      forall j | 0 <= j < |s.rooms|
        ensures SameRoom(t.rooms[j], s.rooms[j])
      {
        if j != s.bookings[b].room {
          assert t.rooms[j] == s.rooms[j];
        }
      }
    } else {
      assert out.store == s;
      forall j | 0 <= j < |s.rooms|
        ensures SameRoom(s.rooms[j], s.rooms[j])
      {
      }
    }
  }

  /** A session keeps a consistent store consistent. */
  lemma SessionPreservesConsistent(s: Store, req: Request)
    requires Consistent(s)
    ensures Consistent(RunSession(s, req).store)
  {
    var guest := NewGuest(req.name, req.email, req.contact, req.loyaltyStatus);
    var s1 := AddGuest(s, guest);
    var g := |s.guests|;
    AddGuestPreservesConsistent(s, guest);
    var offered := Search(s1.rooms, req.roomType);
    if |offered| > 0 {
      var res := Reserve(s1, g, offered, req.roomNumber, req.checkIn, req.checkOut);
      if res.Ok? {
        var r := Select(s1.rooms, offered, req.roomNumber).value;
        SearchSpec(s1.rooms, req.roomType);
        assert s1.rooms[r].available;
        BookPreservesConsistent(s1, g, r, req.checkIn, req.checkOut);
        SettlePreservesConsistent(res.value.store, g, res.value.booking, req);
      }
    }
  }

  /** Settling a confirmed booking keeps a consistent store consistent,
      whether or not the guest then cancels. */
  lemma SettlePreservesConsistent(s: Store, g: GuestId, b: BookingId, req: Request)
    requires Consistent(s) && g < |s.guests| && b < |s.bookings| && s.bookings[b].status == Confirmed
    ensures Consistent(Settle(s, g, b, req).store)
  {
    CancelPreservesConsistent(s, b);
  }

  /** `main` itself: a session on the fixed catalogue with nobody booked. */
  function FrontDeskMain(req: Request): (out: Session)
    ensures Consistent(out.store)
    ensures out.guest == 0
  {
    CatalogueConsistent(Catalogue());
    SessionPreservesConsistent(Store(Catalogue(), [], []), req);
    RunSession(Store(Catalogue(), [], []), req)
  }

  /** Only the available single room 101 answers a search for "single"; the
      unavailable single 103 is left out. */
  lemma SearchExample()
    ensures Search([ Room(101, "Single", ["WiFi"], 100, true),
                     Room(102, "Double", ["WiFi"], 150, true),
                     Room(103, "Single", ["WiFi"], 100, false) ], "single") == [0]
  {
    var rooms := [ Room(101, "Single", ["WiFi"], 100, true),
                   Room(102, "Double", ["WiFi"], 150, true),
                   Room(103, "Single", ["WiFi"], 100, false) ];
    assert Lower("Single") == Lower("single");
    assert Lower("Double") != Lower("single") by {
      assert Lower("Double")[0] == 'd';
    }
    assert OfferedMarks(rooms, "single") == [true, false, false];
    FirstOnly();
  }

  /** Of three positions only the first is marked. */
  lemma FirstOnly()
    ensures Where([true, false, false]) == [0]
  {
    assert [true, false, false][..2] == [true, false];
    assert [true, false][..1] == [true];
    assert [true][..0] == [];
  }

  /** In the catalogue `main` starts with, a search for "single" finds room
      101 alone. */
  lemma CatalogueSingles()
    ensures Search(Catalogue(), "single") == [0]
  {
    assert Lower("Single") == Lower("single");
    assert Lower("Double") != Lower("single") by {
      assert Lower("Double")[0] == 'd';
    }
    assert Lower("Suite") != Lower("single") by {
      assert Lower("Suite")[1] == 'u';
    }
    assert OfferedMarks(Catalogue(), "single") == [true, false, false];
    FirstOnly();
  }

  /** Alice's answers: a single room, number 101, from 2024-03-01 to
      2024-03-03, paying by "Credit Card" and answering "no" to the
      cancellation prompt. */
  function AliceRequest(): (req: Request) {
    Request("Alice", "alice@example.com", "555-0100", "Gold",
            "single", 101, Ordinal(2024, 3, 1), Ordinal(2024, 3, 3), "Credit Card", "no")
  }

  /** The store once Alice's profile exists and room 101 is booked for her. */
  function AliceBooked(): (s: Store) {
    var req := AliceRequest();
    var s1 := AddGuest(Store(Catalogue(), [], []), NewGuest(req.name, req.email, req.contact, req.loyaltyStatus));
    Book(s1, 0, 0, req.checkIn, req.checkOut)
  }

  /** Alice's request gets through the search, the selection and the date
      check to the booking. */
  lemma AliceReserves()
    ensures RunSession(Store(Catalogue(), [], []), AliceRequest()) == Settle(AliceBooked(), 0, 0, AliceRequest())
  {
    var req := AliceRequest();
    var s1 := AddGuest(Store(Catalogue(), [], []), NewGuest(req.name, req.email, req.contact, req.loyaltyStatus));
    CatalogueSingles();
    assert Search(s1.rooms, "single") == [0];
    assert Select(s1.rooms, [0], 101) == Some(0);
    assert req.checkIn < req.checkOut;
  }

  /** Alice's invoice is two nights at 100; her method is accepted and she
      keeps the booking. */
  lemma AlicePays()
    ensures Settle(AliceBooked(), 0, 0, AliceRequest())
              == Session(AliceBooked(), 0, Paid(Invoice("Alice", 101, 2, 100, 200), false))
  {
    AliceInvoice();
    AcceptsCreditCard();
    KeepsOnNo();
  }

  lemma AliceInvoice()
    ensures GenerateInvoice(AliceBooked(), 0) == Invoice("Alice", 101, 2, 100, 200)
  {
    assert Ordinal(2024, 3, 3) - Ordinal(2024, 3, 1) == 2;
  }

  /** Answering "no" keeps the booking. */
  lemma KeepsOnNo()
    ensures !WantsCancel("no")
  {
    assert Lower("no") == "no";
  }

  /** Alice books room 101 from 2024-03-01 to 2024-03-03, pays by credit card
      and keeps the booking: two nights, 200 in all, room 101 taken, her list
      holding that one booking. */
  lemma SessionExample()
    ensures var out := FrontDeskMain(AliceRequest());
            && out.outcome == Paid(Invoice("Alice", 101, 2, 100, 200), false)
            && !out.store.rooms[0].available
            && out.store.guests[0].reservations == [0]
  {
    AliceReserves();
    AlicePays();
  }
}

=== FILE: hotel.dfy ===
/** The hotel's entities — `Room`, `Guest` and `Booking` — and the operations
    their classes offer.

    In the Python front desk, `Assignmen2.py`, every booking holds
    references to a shared `Room` and `Guest` object, and a guest's
    reservation list holds references to bookings. Here those objects live
    in one `Store`, and a reference is an index into the matching sequence:
    two bookings that hold the same room index hold the same room, so a
    change made through one is seen through the other, exactly as with the
    shared objects. Every operation returns the whole new store, so its
    contract can say what changed and that nothing else did. */
module Hotel {
  import opened Dates

  /** Indices into `Store.rooms`, `Store.guests` and `Store.bookings`. */
  type RoomId = nat
  type GuestId = nat
  type BookingId = nat

  datatype Room = Room(number: int, roomType: string, amenities: seq<string>, price: int, available: bool)

  datatype Guest = Guest(name: string, email: string, contact: string, loyaltyStatus: string,
                         reservations: seq<BookingId>)

  /** A booking is `Confirmed` when built and `Cancelled` once cancelled. */
  datatype Status = Confirmed | Cancelled

  datatype Booking = Booking(guest: GuestId, room: RoomId, checkIn: Day, checkOut: Day, status: Status)

  datatype Store = Store(rooms: seq<Room>, guests: seq<Guest>, bookings: seq<Booking>)

  /** The invoice mapping: "Guest", "Room", "Nights", "Price per Night", "Total". */
  datatype Invoice = Invoice(guest: string, room: int, nights: int, pricePerNight: int, total: int)

  /** The result of `cancel_booking`: the new store and the room number its
      confirmation message names. */
  datatype Cancellation = Cancellation(store: Store, roomNumber: int)

  /** Every reference in the store points at an existing object. */
  predicate Valid(s: Store) {
    && (forall b :: 0 <= b < |s.bookings| ==>
          s.bookings[b].guest < |s.guests| && s.bookings[b].room < |s.rooms|)
    && (forall g :: 0 <= g < |s.guests| ==> RefsBelow(s.guests[g].reservations, |s.bookings|))
  }

  predicate RefsBelow(ids: seq<nat>, n: nat) {
    forall k :: 0 <= k < |ids| ==> ids[k] < n
  }

  /** Two rooms agree on everything but availability. */
  predicate SameRoom(a: Room, b: Room) {
    a.number == b.number && a.roomType == b.roomType && a.amenities == b.amenities && a.price == b.price
  }

  /** Two guests agree on every profile field. */
  predicate SameProfile(a: Guest, b: Guest) {
    a.name == b.name && a.email == b.email && a.contact == b.contact && a.loyaltyStatus == b.loyaltyStatus
  }

  /** `Room(number, room_type, amenities, price)`: a new room is available and
      keeps exactly the arguments it was given. */
  function NewRoom(number: int, roomType: string, amenities: seq<string>, price: int): (r: Room)
    ensures r.available
    ensures r.number == number && r.roomType == roomType && r.amenities == amenities && r.price == price
  {
    Room(number, roomType, amenities, price, true)
  }

  /** `Guest(name, email, contact, loyalty_status)`: a new guest has no
      reservations. */
  function NewGuest(name: string, email: string, contact: string, loyaltyStatus: string): (g: Guest)
    ensures g.reservations == []
    ensures g.name == name && g.email == email && g.contact == contact && g.loyaltyStatus == loyaltyStatus
  {
    Guest(name, email, contact, loyaltyStatus, [])
  }

  /** Creating a guest in a session: the new profile gets the next id and
      nothing already in the store changes. */
  function AddGuest(s: Store, guest: Guest): (t: Store)
    ensures t.guests == s.guests + [guest]
    ensures t.rooms == s.rooms && t.bookings == s.bookings
    ensures Valid(s) && RefsBelow(guest.reservations, |s.bookings|) ==> Valid(t)
  {
    s.(guests := s.guests + [guest])
  }

  /** The text `get_status` returns. */
  function StatusName(st: Status): (t: string)
    ensures st == Confirmed <==> t == "Confirmed"
    ensures st == Cancelled <==> t == "Cancelled"
  {
    match st
    case Confirmed => "Confirmed"
    case Cancelled => "Cancelled"
  }

  /** `room.set_available(flag)`: afterwards the room reports `flag`; its
      number, type, amenities and price, every other room, every guest and
      every booking are as before. */
  function SetAvailable(s: Store, r: RoomId, flag: bool): (t: Store)
    requires r < |s.rooms|
    ensures |t.rooms| == |s.rooms|
    ensures t.rooms[r].available == flag && SameRoom(t.rooms[r], s.rooms[r])
    ensures forall j :: 0 <= j < |s.rooms| && j != r ==> t.rooms[j] == s.rooms[j]
    ensures t.guests == s.guests && t.bookings == s.bookings
    ensures Valid(s) ==> Valid(t)
  {
    s.(rooms := s.rooms[r := s.rooms[r].(available := flag)])
  }

  /** `guest.add_reservation(b)`: the guest's list grows by exactly `b` at the
      end, earlier entries kept in order; nothing else changes. */
  function AddReservation(s: Store, g: GuestId, b: BookingId): (t: Store)
    requires g < |s.guests|
    ensures |t.guests| == |s.guests|
    ensures t.guests[g].reservations == s.guests[g].reservations + [b]
    ensures SameProfile(t.guests[g], s.guests[g])
    ensures forall j :: 0 <= j < |s.guests| && j != g ==> t.guests[j] == s.guests[j]
    ensures t.rooms == s.rooms && t.bookings == s.bookings
    ensures Valid(s) && b < |s.bookings| ==> Valid(t)
  {
    var guest := s.guests[g];
    s.(guests := s.guests[g := guest.(reservations := guest.reservations + [b])])
  }

  /** `Booking(guest, room, check_in, check_out)`: a new `Confirmed` booking
      with the next id. Building it neither marks the room taken nor files it
      with the guest; both are left to the caller. */
  function Construct(s: Store, g: GuestId, r: RoomId, checkIn: Day, checkOut: Day): (t: Store)
    ensures |t.bookings| == |s.bookings| + 1 && t.bookings[..|s.bookings|] == s.bookings
    ensures t.bookings[|s.bookings|].status == Confirmed
    ensures t.bookings[|s.bookings|] == Booking(g, r, checkIn, checkOut, Confirmed)
    ensures t.rooms == s.rooms && t.guests == s.guests
    ensures Valid(s) && g < |s.guests| && r < |s.rooms| ==> Valid(t)
  {
    var t := s.(bookings := s.bookings + [Booking(g, r, checkIn, checkOut, Confirmed)]);
    assert forall j :: 0 <= j < |s.guests| ==> t.guests[j] == s.guests[j];
    t
  }

  /** `booking.generate_invoice()`: the whole nights of the stay, the room's
      price and their product, with the guest's name and the room's number.
      It reads the store and changes nothing; it does not look at the
      status. */
  function GenerateInvoice(s: Store, b: BookingId): (inv: Invoice)
    requires Valid(s) && b < |s.bookings|
    ensures var bk := s.bookings[b];
            && inv.guest == s.guests[bk.guest].name
            && inv.room == s.rooms[bk.room].number
            && inv.pricePerNight == s.rooms[bk.room].price
            && bk.checkIn + inv.nights == bk.checkOut
    ensures inv.total == inv.nights * inv.pricePerNight
  {
    var bk := s.bookings[b];
    var room := s.rooms[bk.room];
    var nights := DaysBetween(bk.checkIn, bk.checkOut);
    Invoice(s.guests[bk.guest].name, room.number, nights, room.price, nights * room.price)
  }

  /** `booking.cancel_booking()`: the booking becomes `Cancelled` and, through
      the shared room, that room becomes available. Nothing else about the
      booking, no other booking, no other room and no guest changes. It
      does not look at the current status. */
  function Cancel(s: Store, b: BookingId): (c: Cancellation)
    requires Valid(s) && b < |s.bookings|
    ensures var t, r := c.store, s.bookings[b].room;
            && |t.bookings| == |s.bookings| && |t.rooms| == |s.rooms|
            && t.bookings[b] == s.bookings[b].(status := Cancelled)
            && t.rooms[r].available && SameRoom(t.rooms[r], s.rooms[r])
            && (forall j :: 0 <= j < |s.bookings| && j != b ==> t.bookings[j] == s.bookings[j])
            && (forall j :: 0 <= j < |s.rooms| && j != r ==> t.rooms[j] == s.rooms[j])
            && t.guests == s.guests
            && Valid(t)
    ensures c.roomNumber == s.rooms[s.bookings[b].room].number
  {
    var bk := s.bookings[b];
    var cancelled := s.(bookings := s.bookings[b := bk.(status := Cancelled)]);
    Cancellation(SetAvailable(cancelled, bk.room, true), s.rooms[bk.room].number)
  }

  // Properties of the operations above.

  /** Setting availability twice keeps only the second value. */
  lemma SetAvailableLastWins(s: Store, r: RoomId, a: bool, b: bool)
    requires r < |s.rooms|
    ensures SetAvailable(SetAvailable(s, r, a), r, b) == SetAvailable(s, r, b)
  {
  }

  /** Setting a room to the availability it already has changes nothing. */
  lemma SetAvailableUnchanged(s: Store, r: RoomId)
    requires r < |s.rooms|
    ensures SetAvailable(s, r, s.rooms[r].available) == s
  {
    assert SetAvailable(s, r, s.rooms[r].available).rooms == s.rooms;
  }

  /** Filing two bookings in turn lists them in that order after whatever
      the guest already had. */
  lemma AddTwoReservations(s: Store, g: GuestId, b1: BookingId, b2: BookingId)
    requires g < |s.guests|
    ensures AddReservation(AddReservation(s, g, b1), g, b2).guests[g].reservations
            == s.guests[g].reservations + [b1, b2]
  {
  }

  /** Cancelling is idempotent: a second call changes nothing and reports the
      same room. */
  lemma CancelIdempotent(s: Store, b: BookingId)
    requires Valid(s) && b < |s.bookings|
    ensures Cancel(Cancel(s, b).store, b) == Cancel(s, b)
  {
    var c1 := Cancel(s, b);
    var c2 := Cancel(c1.store, b);
    assert c2.store.bookings == c1.store.bookings;
    assert c2.store.rooms == c1.store.rooms;
  }

  /** Cancelling two bookings gives the same store in either order, even when
      they share a room. */
  lemma CancelCommutes(s: Store, a: BookingId, b: BookingId)
    requires Valid(s) && a < |s.bookings| && b < |s.bookings|
    ensures Cancel(Cancel(s, a).store, b).store == Cancel(Cancel(s, b).store, a).store
  {
    var ab := Cancel(Cancel(s, a).store, b).store;
    var ba := Cancel(Cancel(s, b).store, a).store;
    assert ab.bookings == ba.bookings;
    assert ab.rooms == ba.rooms;
  }

  /** The invoice does not depend on the status: after cancellation it is the
      same as before. */
  lemma InvoiceAfterCancel(s: Store, b: BookingId, x: BookingId)
    requires Valid(s) && b < |s.bookings| && x < |s.bookings|
    ensures GenerateInvoice(Cancel(s, b).store, x) == GenerateInvoice(s, x)
  {
  }

  /** A stay of at least one night bills at least one night's
      price. */
  lemma InvoiceOfValidStay(s: Store, b: BookingId)
    requires Valid(s) && b < |s.bookings|
    requires s.bookings[b].checkIn < s.bookings[b].checkOut
    requires s.rooms[s.bookings[b].room].price >= 0
    ensures GenerateInvoice(s, b).nights >= 1
    ensures GenerateInvoice(s, b).total >= GenerateInvoice(s, b).pricePerNight
  {
    var inv := GenerateInvoice(s, b);
    assert inv.total == inv.nights * inv.pricePerNight;
    assert (inv.nights - 1) * inv.pricePerNight >= 0;
  }

  /** Splitting a stay at any day in between splits the bill: the nights and
      the totals of the two parts add up to the whole. */
  lemma InvoiceSplitsAtAnyDay(s: Store, g: GuestId, r: RoomId, checkIn: Day, mid: Day, checkOut: Day)
    requires Valid(s) && g < |s.guests| && r < |s.rooms|
    ensures var whole := Construct(s, g, r, checkIn, checkOut);
            var first := Construct(s, g, r, checkIn, mid);
            var second := Construct(s, g, r, mid, checkOut);
            var n := |s.bookings|;
            && GenerateInvoice(first, n).nights + GenerateInvoice(second, n).nights
               == GenerateInvoice(whole, n).nights
            && GenerateInvoice(first, n).total + GenerateInvoice(second, n).total
               == GenerateInvoice(whole, n).total
  {
    var p := s.rooms[r].price;
    assert (mid - checkIn) * p + (checkOut - mid) * p == (checkOut - checkIn) * p;
  }

  /** Three nights at 100 cost 300. */
  lemma InvoiceExample()
    ensures var s := Store([NewRoom(101, "Single", ["WiFi", "TV"], 100)],
                           [NewGuest("Alice", "alice@example.com", "555-0100", "Gold")],
                           [Booking(0, 0, Ordinal(2024, 1, 1), Ordinal(2024, 1, 4), Confirmed)]);
            GenerateInvoice(s, 0) == Invoice("Alice", 101, 3, 100, 300)
  {
  }
}

=== FILE: indices.dfy ===
/** Positions of a sequence that pass a test, in order. The room search and
    a guest's reservation list are both such a list: the catalogue positions
    of the rooms on offer, and the booking ids made for the guest. */
module Indices {

  predicate Increasing(ids: seq<nat>) {
    forall i, j :: 0 <= i < j < |ids| ==> ids[i] < ids[j]
  }

  /** The positions at which `marks` holds `true`, ascending; `WhereSpec`
      states what it returns. */
  function Where(marks: seq<bool>): (ids: seq<nat>)
    ensures |ids| <= |marks|
    ensures forall k :: 0 <= k < |ids| ==> ids[k] < |marks|
  {
    if |marks| == 0 then []
    else
      var n := |marks| - 1;
      Where(marks[..n]) + (if marks[n] then [n] else [])
  }

  /** `Where` returns exactly the marked positions, each once, in order. */
  lemma WhereSpec(marks: seq<bool>)
    ensures var ids := Where(marks);
            && Increasing(ids)
            && (forall k :: 0 <= k < |ids| ==> ids[k] < |marks| && marks[ids[k]])
            && (forall j :: 0 <= j < |marks| && marks[j] ==> j in ids)
  {
    WhereIncreasing(marks);
    WhereSound(marks);
    WhereComplete(marks);
  }

  lemma {:induction false} WhereIncreasing(marks: seq<bool>)
    ensures Increasing(Where(marks))
    decreases |marks|
  {
    if |marks| > 0 {
      WhereIncreasing(marks[..|marks| - 1]);
    }
  }

  lemma {:induction false} WhereSound(marks: seq<bool>)
    ensures forall k :: 0 <= k < |Where(marks)| ==> marks[Where(marks)[k]]
    decreases |marks|
  {
    if |marks| > 0 {
      var n := |marks| - 1;
      var prev := Where(marks[..n]);
      WhereSound(marks[..n]);
      assert forall k :: 0 <= k < |prev| ==> marks[prev[k]] by {
        forall k | 0 <= k < |prev| ensures marks[prev[k]] {
          assert marks[..n][prev[k]];
        }
      }
    }
  }

  lemma {:induction false} WhereComplete(marks: seq<bool>)
    ensures forall j :: 0 <= j < |marks| && marks[j] ==> j in Where(marks)
    decreases |marks|
  {
    if |marks| > 0 {
      var n := |marks| - 1;
      var prev := Where(marks[..n]);
      WhereComplete(marks[..n]);
      forall j | 0 <= j < n && marks[j]
        ensures j in prev
      {
        assert marks[..n][j];
      }
    }
  }

  /** A new last element is listed after all earlier positions, if marked. */
  lemma WhereAppend(marks: seq<bool>, m: bool)
    ensures Where(marks + [m]) == Where(marks) + (if m then [|marks|] else [])
  {
    assert (marks + [m])[..|marks|] == marks;
  }

  /** With nothing marked, nothing is listed. */
  lemma {:induction false} WhereNone(marks: seq<bool>)
    requires forall j :: 0 <= j < |marks| ==> !marks[j]
    ensures Where(marks) == []
    decreases |marks|
  {
    if |marks| > 0 {
      WhereNone(marks[..|marks| - 1]);
    }
  }

  /** Every position moved up by `d`. */
  function Shift(ids: seq<nat>, d: nat): (r: seq<nat>)
    ensures |r| == |ids| && forall k :: 0 <= k < |ids| ==> r[k] == ids[k] + d
  {
    seq(|ids|, k requires 0 <= k < |ids| => ids[k] + d)
  }

  lemma ShiftAppend(x: seq<nat>, y: seq<nat>, d: nat)
    ensures Shift(x + y, d) == Shift(x, d) + Shift(y, d)
  {
  }

  /** Listing two parts one after the other lists the first part's positions
      followed by the second part's, moved up: the order is kept. */
  lemma {:induction false} WhereSplits(a: seq<bool>, b: seq<bool>)
    ensures Where(a + b) == Where(a) + Shift(Where(b), |a|)
    decreases |b|
  {
    if |b| == 0 {
      assert a + b == a;
    } else {
      var n := |b| - 1;
      var last := if b[n] then [n] else [];
      var moved := if b[n] then [|a| + n] else [];
      assert (a + b)[..|a| + n] == a + b[..n];
      assert (a + b)[|a| + n] == b[n];
      assert Shift(last, |a|) == moved;
      calc {
        Where(a + b);
        Where(a + b[..n]) + moved;
        { WhereSplits(a, b[..n]); }
        Where(a) + Shift(Where(b[..n]), |a|) + moved;
        { ShiftAppend(Where(b[..n]), last, |a|); }
        Where(a) + Shift(Where(b[..n]) + last, |a|);
      }
    }
  }
}

=== FILE: lifecycle.dfy ===
/** The booking lifecycle across the whole store: the three-step booking
    protocol the front desk follows, the invariant that protocol and a first
    cancellation keep, and the facts that hold after any sequence of the
    classes' operations (a cancelled booking stays cancelled, a booking's
    guest, room and dates never change, reservation lists only grow). */
module Lifecycle {
  import opened Dates
  import opened Indices
  import opened Hotel

  /** Marks the bookings made for guest `g`. */
  function GuestMarks(bs: seq<Booking>, g: GuestId): (m: seq<bool>)
    ensures |m| == |bs| && forall i :: 0 <= i < |bs| ==> m[i] == (bs[i].guest == g)
  {
    seq(|bs|, i requires 0 <= i < |bs| => bs[i].guest == g)
  }

  /** The ids of the bookings made for guest `g`, in the order they were
      made: exactly those ids, each once, ascending. */
  function BookingsOf(bs: seq<Booking>, g: GuestId): (ids: seq<BookingId>)
    ensures forall k :: 0 <= k < |ids| ==> ids[k] < |bs| && bs[ids[k]].guest == g
    ensures forall i :: 0 <= i < |bs| && bs[i].guest == g ==> i in ids
    ensures Increasing(ids)
  {
    WhereSpec(GuestMarks(bs, g));
    Where(GuestMarks(bs, g))
  }

  /** A new booking is listed after every earlier booking of its guest. */
  lemma BookingsOfAppend(bs: seq<Booking>, x: Booking, g: GuestId)
    ensures BookingsOf(bs + [x], g) == BookingsOf(bs, g) + (if x.guest == g then [|bs|] else [])
  {
    assert GuestMarks(bs + [x], g) == GuestMarks(bs, g) + [x.guest == g];
    WhereAppend(GuestMarks(bs, g), x.guest == g);
  }

  /** Only the guest of each booking decides the lists; a status change
      leaves them alone. */
  lemma BookingsOfSameGuests(bs: seq<Booking>, cs: seq<Booking>, g: GuestId)
    requires |bs| == |cs|
    requires forall i :: 0 <= i < |bs| ==> bs[i].guest == cs[i].guest
    ensures BookingsOf(bs, g) == BookingsOf(cs, g)
  {
    assert GuestMarks(bs, g) == GuestMarks(cs, g);
  }

  /** A guest no booking names has no bookings. */
  lemma BookingsOfAbsent(bs: seq<Booking>, g: GuestId)
    requires forall i :: 0 <= i < |bs| ==> bs[i].guest != g
    ensures BookingsOf(bs, g) == []
  {
    WhereNone(GuestMarks(bs, g));
  }

  /** No confirmed booking holds room `r`. */
  predicate Unbooked(bs: seq<Booking>, r: RoomId) {
    forall b :: 0 <= b < |bs| && bs[b].room == r ==> bs[b].status == Cancelled
  }

  /** At most one confirmed booking per room. */
  predicate SingleOccupancy(bs: seq<Booking>) {
    forall a, b ::
      (0 <= a < |bs| && 0 <= b < |bs| && a != b && bs[a].room == bs[b].room && bs[a].status == Confirmed)
      ==> bs[b].status == Cancelled
  }

  /** The store invariant the booking protocol is meant to keep:
      references resolve, each guest's list is exactly that guest's bookings
      in booking order, a room is available exactly when no confirmed booking
      holds it, no room is held twice, and every stay is at least one night. */
  predicate Consistent(s: Store) {
    && Valid(s)
    && (forall g :: 0 <= g < |s.guests| ==> s.guests[g].reservations == BookingsOf(s.bookings, g))
    && (forall r :: 0 <= r < |s.rooms| ==> (s.rooms[r].available <==> Unbooked(s.bookings, r)))
    && SingleOccupancy(s.bookings)
    && (forall b :: 0 <= b < |s.bookings| ==> s.bookings[b].checkIn < s.bookings[b].checkOut)
  }

  /** A new guest with no reservations keeps a consistent store consistent. */
  lemma AddGuestPreservesConsistent(s: Store, guest: Guest)
    requires Consistent(s) && guest.reservations == []
    ensures Consistent(AddGuest(s, guest))
  {
    BookingsOfAbsent(s.bookings, |s.guests|);
  }

  /** A fresh catalogue with nobody booked is consistent. */
  lemma CatalogueConsistent(rooms: seq<Room>)
    requires forall r :: 0 <= r < |rooms| ==> rooms[r].available
    ensures Consistent(Store(rooms, [], []))
  {
  }

  /** The booking protocol: build the booking, mark its room unavailable,
      file it with the guest. The new booking is the last one; the room is
      now taken; the guest's list ends with it; nothing else changes. */
  function Book(s: Store, g: GuestId, r: RoomId, checkIn: Day, checkOut: Day): (t: Store)
    requires Valid(s) && g < |s.guests| && r < |s.rooms|
    ensures var n := |s.bookings|;
            && |t.bookings| == n + 1 && t.bookings[..n] == s.bookings
            && t.bookings[n] == Booking(g, r, checkIn, checkOut, Confirmed)
    ensures |t.rooms| == |s.rooms| && !t.rooms[r].available && SameRoom(t.rooms[r], s.rooms[r])
    ensures forall j :: 0 <= j < |s.rooms| && j != r ==> t.rooms[j] == s.rooms[j]
    ensures |t.guests| == |s.guests|
    ensures t.guests[g].reservations == s.guests[g].reservations + [|s.bookings|]
    ensures SameProfile(t.guests[g], s.guests[g])
    ensures forall j :: 0 <= j < |s.guests| && j != g ==> t.guests[j] == s.guests[j]
    ensures Valid(t)
  {
    var n := |s.bookings|;
    var built := Construct(s, g, r, checkIn, checkOut);
    var taken := SetAvailable(built, r, false);
    AddReservation(taken, g, n)
  }

  /** Booking an available room for at least one night keeps the store
      consistent. */
  lemma BookPreservesConsistent(s: Store, g: GuestId, r: RoomId, checkIn: Day, checkOut: Day)
    requires Consistent(s) && g < |s.guests| && r < |s.rooms|
    requires s.rooms[r].available && checkIn < checkOut
    ensures Consistent(Book(s, g, r, checkIn, checkOut))
  {
    var t := Book(s, g, r, checkIn, checkOut);
    var n := |s.bookings|;
    var x := Booking(g, r, checkIn, checkOut, Confirmed);
    assert t.bookings == s.bookings + [x];
    forall h | 0 <= h < |t.guests|
      ensures t.guests[h].reservations == BookingsOf(t.bookings, h)
    {
      BookingsOfAppend(s.bookings, x, h);
    }
    forall j | 0 <= j < |t.rooms|
      ensures t.rooms[j].available <==> Unbooked(t.bookings, j)
    {
      if j != r {
        assert Unbooked(t.bookings, j) <==> Unbooked(s.bookings, j);
      } else {
        assert t.bookings[n].room == j && t.bookings[n].status == Confirmed;
      }
    }
    assert Unbooked(s.bookings, r);
  }

  /** Cancelling a confirmed booking keeps the store consistent: its room is
      free again because no other confirmed booking held it. */
  lemma CancelPreservesConsistent(s: Store, b: BookingId)
    requires Consistent(s) && b < |s.bookings| && s.bookings[b].status == Confirmed
    ensures Consistent(Cancel(s, b).store)
  {
    var t := Cancel(s, b).store;
    var r := s.bookings[b].room;
    forall h | 0 <= h < |t.guests|
      ensures t.guests[h].reservations == BookingsOf(t.bookings, h)
    {
      BookingsOfSameGuests(s.bookings, t.bookings, h);
    }
    forall j | 0 <= j < |t.rooms|
      ensures t.rooms[j].available <==> Unbooked(t.bookings, j)
    {
      if j != r {
        assert Unbooked(t.bookings, j) <==> Unbooked(s.bookings, j) by {
          assert forall i :: 0 <= i < |s.bookings| && i != b ==> t.bookings[i] == s.bookings[i];
        }
      } else {
        assert forall i :: 0 <= i < |t.bookings| && t.bookings[i].room == r ==> t.bookings[i].status == Cancelled by {
          forall i | 0 <= i < |t.bookings| && t.bookings[i].room == r
            ensures t.bookings[i].status == Cancelled
          {
            if i != b {
              assert s.bookings[i].room == s.bookings[b].room;
            }
          }
        }
      }
    }
  }

  /** Cancellation does not check the status. Once the room of a cancelled
      booking has been booked again, cancelling the old booking a second time
      frees a room that a confirmed booking still holds: the store is no
      longer consistent. */
  lemma RecancelBreaksConsistency(s: Store, b: BookingId, g: GuestId, checkIn: Day, checkOut: Day)
    requires Consistent(s) && b < |s.bookings| && s.bookings[b].status == Cancelled
    requires s.rooms[s.bookings[b].room].available
    requires g < |s.guests| && checkIn < checkOut
    ensures var t := Book(s, g, s.bookings[b].room, checkIn, checkOut);
            Consistent(t) && !Consistent(Cancel(t, b).store)
  {
    var r := s.bookings[b].room;
    BookPreservesConsistent(s, g, r, checkIn, checkOut);
    var t := Book(s, g, r, checkIn, checkOut);
    var u := Cancel(t, b).store;
    var n := |s.bookings|;
    assert u.rooms[r].available;
    assert u.bookings[n] == t.bookings[n];
    assert !Unbooked(u.bookings, r);
  }

  /** In a consistent store every booking's invoice bills at least one
      night. */
  lemma ConsistentInvoiceHasNights(s: Store, b: BookingId)
    requires Consistent(s) && b < |s.bookings|
    ensures GenerateInvoice(s, b).nights >= 1
  {
  }

  /** The operations of the three classes, with references as store ids. */
  datatype Op =
    | SetRoomAvailable(room: RoomId, flag: bool)
    | FileReservation(guest: GuestId, booking: BookingId)
    | CreateBooking(guest: GuestId, room: RoomId, checkIn: Day, checkOut: Day)
    | CancelBooking(booking: BookingId)

  /** One operation. An operation naming an object the store does not hold
      leaves the store alone; the Python front desk, `Assignmen2.py`, cannot
      form such a call. */
  function Step(s: Store, op: Op): (t: Store)
    requires Valid(s)
    ensures Valid(t)
  {
    match op
    case SetRoomAvailable(r, flag) =>
      if r < |s.rooms| then SetAvailable(s, r, flag) else s
    case FileReservation(g, b) =>
      if g < |s.guests| && b < |s.bookings| then AddReservation(s, g, b) else s
    case CreateBooking(g, r, checkIn, checkOut) =>
      if g < |s.guests| && r < |s.rooms| then Construct(s, g, r, checkIn, checkOut) else s
    case CancelBooking(b) =>
      if b < |s.bookings| then Cancel(s, b).store else s
  }

  function Run(s: Store, ops: seq<Op>): (t: Store)
    requires Valid(s)
    ensures Valid(t)
    decreases |ops|
  {
    if |ops| == 0 then s else Run(Step(s, ops[0]), ops[1..])
  }

  /** Booking `b` of `s` lives on in `t`: same guest, room and dates, and
      cancelled in `t` if it was cancelled in `s`. */
  predicate Persists(s: Store, t: Store, b: BookingId)
    requires b < |s.bookings| <= |t.bookings|
  {
    var x, y := s.bookings[b], t.bookings[b];
    && y.guest == x.guest && y.room == x.room && y.checkIn == x.checkIn && y.checkOut == x.checkOut
    && (x.status == Cancelled ==> y.status == Cancelled)
  }

  /** What any operation keeps: bookings are never removed or reopened, rooms
      keep their attributes, reservation lists only grow at the end. */
  predicate Evolves(s: Store, t: Store) {
    && |s.bookings| <= |t.bookings|
    && (forall b :: 0 <= b < |s.bookings| ==> Persists(s, t, b))
    && |t.rooms| == |s.rooms|
    && (forall r :: 0 <= r < |s.rooms| ==> SameRoom(t.rooms[r], s.rooms[r]))
    && |t.guests| == |s.guests|
    && (forall g :: 0 <= g < |s.guests| ==>
          SameProfile(t.guests[g], s.guests[g])
          && s.guests[g].reservations <= t.guests[g].reservations)
  }

  lemma StepEvolves(s: Store, op: Op)
    requires Valid(s)
    ensures Evolves(s, Step(s, op))
  {
  }

  lemma EvolvesTransitive(s: Store, t: Store, u: Store)
    requires Evolves(s, t) && Evolves(t, u)
    ensures Evolves(s, u)
  {
    forall b | 0 <= b < |s.bookings|
      ensures Persists(s, u, b)
    {
      assert Persists(s, t, b) && Persists(t, u, b);
    }
    forall g | 0 <= g < |s.guests|
      ensures s.guests[g].reservations <= u.guests[g].reservations
    {
      var a, b, c := s.guests[g].reservations, t.guests[g].reservations, u.guests[g].reservations;
      assert a <= b && b <= c;
      assert a == b[..|a|] && b == c[..|b|];
      assert a == c[..|a|];
    }
  }

  /** Whatever the classes' operations do, in whatever order: a cancelled
      booking is never confirmed again, no booking changes guest, room or
      dates, no room changes number, type, amenities or price, and no entry
      leaves a reservation list. */
  lemma {:induction false} RunEvolves(s: Store, ops: seq<Op>)
    requires Valid(s)
    ensures Evolves(s, Run(s, ops))
    decreases |ops|
  {
    if |ops| == 0 {
      assert Run(s, ops) == s;
    } else {
      var t := Step(s, ops[0]);
      StepEvolves(s, ops[0]);
      RunEvolves(t, ops[1..]);
      EvolvesTransitive(s, t, Run(t, ops[1..]));
    }
  }
}

=== FILE: results.dfy ===
/** Failure-carrying values used where the front desk reports an input error
    instead of raising an exception. */
module Results {

  /** An optional value: the Python `None` of a search that found nothing. */
  datatype Option<+T> = None | Some(value: T)

  /** Either a value or the reason no value could be produced. */
  datatype Result<+T, +E> = Ok(value: T) | Err(error: E)
}

=== FILE: text.dfy ===
/** The two string normalisations the front desk applies to typed input:
    `str.lower()` (here restricted to ASCII letters) and `str.strip()` (the
    complete set of characters Python's `str.isspace` accepts). */
module Text {

  /** Python's whitespace: the ASCII controls TAB..CR and FS..US, the space,
      NEL, NBSP and the Unicode space separators. */
  predicate IsSpace(c: char) {
    var n := c as int;
    || 0x09 <= n <= 0x0D
    || 0x1C <= n <= 0x20
    || n == 0x85 || n == 0xA0 || n == 0x1680
    || 0x2000 <= n <= 0x200A
    || n == 0x2028 || n == 0x2029 || n == 0x202F || n == 0x205F || n == 0x3000
  }

  predicate AllSpace(s: string) {
    forall i :: 0 <= i < |s| ==> IsSpace(s[i])
  }

  lemma AllSpaceAppend(a: string, b: string)
    requires AllSpace(a) && AllSpace(b)
    ensures AllSpace(a + b)
  {
  }

  lemma Regroup(p: string, x: string, q: string, p': string, c: string, q': string)
    requires x == p' + c + q'
    ensures p + x + q == (p + p') + c + (q' + q)
  {
  }

  /** Neither begins nor ends with whitespace. */
  predicate IsStripped(s: string) {
    |s| == 0 || (!IsSpace(s[0]) && !IsSpace(s[|s| - 1]))
  }

  predicate IsUpper(c: char) {
    0x41 <= c as int <= 0x5A
  }

  /** ASCII lower-casing of one character; every other character is kept. */
  function LowerChar(c: char): (d: char)
    ensures IsUpper(c) ==> d as int == c as int + 32
    ensures !IsUpper(c) ==> d == c
    ensures !IsUpper(d)
  {
    if IsUpper(c) then (c as int + 32) as char else c
  }

  /** `s.lower()`: each character lower-cased in place. */
  function Lower(s: string): (r: string)
    ensures |r| == |s|
  {
    seq(|s|, i requires 0 <= i < |s| => LowerChar(s[i]))
  }

  /** `s.lstrip()`: drops the leading whitespace and nothing else. */
  function StripStart(s: string): (r: string)
    ensures |r| <= |s| && r == s[|s| - |r|..]
    ensures AllSpace(s[..|s| - |r|])
    ensures |r| == 0 || !IsSpace(r[0])
  {
    if |s| > 0 && IsSpace(s[0]) then StripStart(s[1..]) else s
  }

  /** `s.rstrip()`: drops the trailing whitespace and nothing else. */
  function StripEnd(s: string): (r: string)
    ensures |r| <= |s| && r == s[..|r|]
    ensures AllSpace(s[|r|..])
    ensures |r| == 0 || !IsSpace(r[|r| - 1])
  {
    if |s| > 0 && IsSpace(s[|s| - 1]) then StripEnd(s[..|s| - 1]) else s
  }

  /** `s.strip()`: `rstrip` after `lstrip`. */
  function Strip(s: string): (r: string)
    ensures IsStripped(r) && |r| <= |s|
  {
    StripEnd(StripStart(s))
  }

  /** What `strip` removed: `s` is the stripped text with whitespace on
      either side. */
  lemma StripParts(s: string) returns (p: string, q: string)
    ensures s == p + Strip(s) + q
    ensures AllSpace(p) && AllSpace(q)
  {
    var t := StripStart(s);
    var r := StripEnd(t);
    p, q := s[..|s| - |t|], t[|r|..];
    Rejoin(s, t, r);
  }

  /** A suffix `t` of `s` and a prefix `r` of `t` cut `s` in three. */
  lemma Rejoin(s: string, t: string, r: string)
    requires |t| <= |s| && t == s[|s| - |t|..]
    requires |r| <= |t| && r == t[..|r|]
    ensures s == s[..|s| - |t|] + r + t[|r|..]
  {
    assert t == r + t[|r|..];
    assert s == s[..|s| - |t|] + t;
  }

  /** Whitespace in front of a string that does not itself begin with
      whitespace is exactly what `lstrip` removes. */
  lemma {:induction false} StripStartPadded(p: string, x: string)
    requires AllSpace(p)
    requires |x| == 0 || !IsSpace(x[0])
    ensures StripStart(p + x) == x
    decreases |p|
  {
    if |p| == 0 {
      assert p + x == x;
    } else {
      assert (p + x)[1..] == p[1..] + x;
      StripStartPadded(p[1..], x);
    }
  }

  lemma {:induction false} StripEndPadded(x: string, q: string)
    requires AllSpace(q)
    requires |x| == 0 || !IsSpace(x[|x| - 1])
    ensures StripEnd(x + q) == x
    decreases |q|
  {
    if |q| == 0 {
      assert x + q == x;
    } else {
      assert (x + q)[..|x + q| - 1] == x + q[..|q| - 1];
      StripEndPadded(x, q[..|q| - 1]);
    }
  }

  /** `strip` is characterised by its result: whenever `s` is a stripped core
      wrapped in whitespace, the core is what `strip` returns. */
  lemma StripUnique(p: string, c: string, q: string)
    requires AllSpace(p) && AllSpace(q) && IsStripped(c)
    ensures Strip(p + c + q) == c
  {
    if |c| == 0 {
      assert p + c + q == p + q;
      assert StripStart(p + q) == [] by {
        assert AllSpace(p + q);
        StripStartPadded(p + q, []);
        assert p + q + [] == p + q;
      }
    } else {
      assert p + c + q == p + (c + q);
      StripStartPadded(p, c + q);
      StripEndPadded(c, q);
    }
  }

  /** Text with no whitespace at either end is its own strip. */
  lemma StripStripped(c: string)
    requires IsStripped(c)
    ensures Strip(c) == c
  {
    assert [] + c + [] == c;
    StripUnique([], c, []);
  }

  /** Stripping twice is stripping once. */
  lemma StripIdempotent(s: string)
    ensures Strip(Strip(s)) == Strip(s)
  {
    StripStripped(Strip(s));
  }

  /** Lower-casing never creates or removes whitespace, so it commutes with
      stripping. */
  lemma LowerStripCommute(s: string)
    ensures Lower(Strip(s)) == Strip(Lower(s))
  {
    LowerStripStartCommute(s);
    LowerStripEndCommute(StripStart(s));
  }

  /** What `lstrip` removes is whitespace, which lower-casing keeps, so the
      two commute. */
  lemma LowerStripStartCommute(s: string)
    ensures Lower(StripStart(s)) == StripStart(Lower(s))
  {
    var t := StripStart(s);
    var p := s[..|s| - |t|];
    assert s == p + t;
    LowerAppend(p, t);
    LowerSpaces(p);
    if |t| > 0 {
      SpaceLower(t[0]);
    }
    StripStartPadded(p, Lower(t));
  }

  lemma LowerStripEndCommute(s: string)
    ensures Lower(StripEnd(s)) == StripEnd(Lower(s))
  {
    var t := StripEnd(s);
    var q := s[|t|..];
    assert s == t + q;
    LowerAppend(t, q);
    LowerSpaces(q);
    if |t| > 0 {
      SpaceLower(t[|t| - 1]);
    }
    StripEndPadded(Lower(t), q);
  }

  /** Lower-casing keeps whitespace and non-whitespace apart. */
  lemma SpaceLower(c: char)
    ensures IsSpace(LowerChar(c)) <==> IsSpace(c)
  {
  }

  /** Whitespace is left alone by lower-casing. */
  lemma LowerSpaces(p: string)
    requires AllSpace(p)
    ensures Lower(p) == p
  {
  }

  lemma LowerAppend(a: string, b: string)
    ensures Lower(a + b) == Lower(a) + Lower(b)
  {
  }

  /** Lower-casing is idempotent. */
  lemma LowerIdempotent(s: string)
    ensures Lower(Lower(s)) == Lower(s)
  {
  }

  /** Case-insensitive equality, as `a.lower() == b.lower()`. */
  predicate EqualsIgnoreCase(a: string, b: string) {
    Lower(a) == Lower(b)
  }
}
